=== FILE: README.md ===
# strongSwan `pki`: subcommand registry and dispatch

A Dafny model of the part of strongSwan's `pki` tool that registers
subcommands, builds the getopt-style option table and short-option string
for the current selection, renders the usage text, and dispatches the
process arguments to the subcommand the first option names
(`src/pki/command.c`).

The file-scope state of `command.c` is one immutable record, `Pki`: the
command array's capacity, the registered commands, the `active` and
`help_idx` indices, and the two fixed-size buffers (`command_opts`,
`command_optstring`). The mode test is the source's own: the top-level
listing is active exactly when `active == help_idx`. The buffers are
sequences of fixed length. `build_opts` clears them and then writes at
their fronts (`CBuffers.Fill`). The parser and the handlers see what a C
reader sees: the entries before the first all-zero slot (`CBuffers.Table`)
and the characters before the first NUL (`CBuffers.CString`).

`getopt_long` is a function parameter (`Dispatch.Parser`). It receives the
process arguments, the optstring and the option table, and returns one
code. The subcommand handlers are a function parameter as well
(`Dispatch.Handlers`). A handler is called with its id, the unmodified
process arguments, and the optstring and table that `build_opts` left for
it. The implicit help entry runs the usage renderer. The usage text is a
returned sequence of lines, each tagged with its stream.

Text is modelled as C byte strings. Every Dafny `char` stands for one byte
(ASCII text), and the text fields of a descriptor hold no NUL, as no C
string can. With that reading the formatting follows the source byte for
byte:
- the `snprintf` into the 64-byte buffer keeps the first 63 bytes;
- `%s` prints that buffer up to its first NUL, so a NUL code ends the
  printed label right after `(-`;
- `%-14s` and `%-15s` pad with spaces on the right;
- the indents are the ones the source prints.

Modules and files:
- `types.dfy` (`PkiTypes`): descriptors, option entries, lines and the state.
- `buffers.dfy` (`CBuffers`): buffer clearing and filling, the terminated
  reads, and the declared buffer size.
- `optstring.dfy` (`OptString`): the short-option string and the colon
  convention the parser reads it back with.
- `registry.dfy` (`Registry`): the initial state, `command_register`, and
  the first-match lookup.
- `build.dfy` (`Build`): `build_opts`, as a function and as the loops the
  source runs.
- `usage.dfy` (`UsageRenderer`): `command_usage`.
- `dispatch.dfy` (`Dispatch`): `help` and `command_dispatch`.

## Model

| member | source | states |
|---|---|---|
| Registry.Init | src/pki/command.c:26-51 | The corrected initial state: nothing registered and `active == help_idx` (top-level mode). Both buffers are all zero and at least as large as either limit, so each holds a top-level or a scoped build. The optstring is three times the table, and both read back empty. |
| Registry.InitAsWritten | src/pki/command.c:46-51 | The initial state with the buffers as declared: both buffers all zero, with one table entry and three optstring bytes whenever there are more commands than options. Otherwise it is the same state as Registry.Init. |
| Registry.Register | src/pki/command.c:98-101 | The count grows by exactly one and the new descriptor sits at the old count. All earlier entries keep their places and order, and nothing else in the state changes. |
| Registry.FindCommand | src/pki/command.c:173-177 | The scan picks an index whose code equals the parser's result, and no earlier index carries that code. It finds nothing exactly when no entry carries the code. |
| Registry.ShadowedCommandUnreachable | src/pki/command.c:173-177 | A command whose code an earlier command already uses is never selected, because first match wins. |
| Registry.RegisterPreservesLookup | src/pki/command.c:173-177 | Registering never changes which command an already-matching code selects. A code that matched nothing selects the new command exactly when the new command carries it. |
| CBuffers.Fill | src/pki/command.c:60-61 | After the clear and the write, the buffer keeps its size, holds the written elements at its front, and is blank everywhere after them. |
| CBuffers.CStringOfFill | src/pki/command.c:60-61 | A NUL-free string written into a cleared buffer that has room for its terminator reads back unchanged. No byte of earlier content survives. |
| CBuffers.TableOfFill | src/pki/command.c:60-61 | Entries written into a cleared table with room for the all-zero terminator read back as exactly those entries. |
| CBuffers.CStringOfNulFree | src/pki/command.c:123-124 | A buffer holding no NUL is read by `%s` in full. |
| CBuffers.CapacityAsWritten | src/pki/command.c:46 | GNU `a ?: b` on the comparison: the declared size is 1 whenever there are more commands than options, and `MAX_OPTIONS` otherwise. |
| CBuffers.Capacity | src/pki/command.c:46-51 | The corrected table size is the larger of the two limits, and it is one of them. |
| CBuffers.CapacityAsWrittenVersusIntended | src/pki/command.c:46-51 | The declared size equals the intended one when commands do not outnumber options. Otherwise, whenever the command limit is above 1, it is smaller than the command limit. |
| OptString.Colons | src/pki/command.c:79-90 | After a flag's code come no colons for no_argument, one for required_argument, and two for optional_argument (the case fall-through). |
| OptString.ScopedOptstringAppend | src/pki/command.c:78-90 | Building the scoped optstring distributes over concatenation of flag lists. |
| OptString.ScopedOptstring | src/pki/command.c:78-90 | The scoped optstring opens with the first flag's code, and each flag adds one to three characters. So three bytes per table entry, as declared at line 51, always suffice. |
| OptString.ScopedOptstringLength | src/pki/command.c:78-90 | The optstring is exactly as long as the flag list if and only if no flag takes a value. |
| OptString.ScopedOptstringChars | src/pki/command.c:78-90 | Every character of a scoped optstring is a colon or some flag's code. |
| OptString.ScopedOptstringParses | src/pki/command.c:78-90 | Round trip: if no code is a colon, reading the scoped optstring back with the colon convention gives each flag's code and argument mode, in declared order. |
| OptString.TopLevelOptstringParses | src/pki/command.c:64-69 | Round trip: the top-level optstring reads back as every command's code, each taking no value. |
| OptString.ScopedOptstringExample | src/pki/command.c:78-90 | The flags (a, none), (b, required), (c, optional) give `ab:c::`. |
| Build.BuiltTable | src/pki/command.c:60-77 | The table buffer keeps its size. It reads back as exactly the active selection's entries, and every slot after them is the all-zero entry. |
| Build.BuiltOptstring | src/pki/command.c:61-90 | The optstring buffer keeps its size. If no code is NUL it reads back as the active selection's optstring, and every byte after it is NUL. |
| Build.BuildOpts | src/pki/command.c:56-93 | Only the two buffers change, and they keep their sizes. The parser reads back exactly the active selection's table and (when codes are NUL-free) its optstring, and everything after them is zero. |
| Build.OptstringReadsBack | src/pki/command.c:60-90 | When no code is NUL, the filled optstring buffer reads back as the active optstring. |
| Build.ActiveOptstringNulFree | src/pki/command.c:64-90 | When no code is NUL, the optstring contains no NUL, so a C reader sees all of it. |
| Build.BuildOptsIgnoresBuffers | src/pki/command.c:60-61 | The result depends on the registry and the selection only. Any earlier buffer contents give the same result, and building twice in a row equals building once. |
| Build.TableAgreesWithOptstring | src/pki/command.c:62-90 | Both artifacts of one build describe the same options. Read back with the colon convention, the optstring gives, entry for entry, the table's `val` and `has_arg` (when no code is a colon or NUL). |
| Build.FillScoped | src/pki/command.c:73-91 | The scoped loop writes entry i from flag i. Its `pos` cursor appends the code and then the colons of the fall-through switch, producing the clear-then-write buffers. |
| Build.FillTopLevel | src/pki/command.c:64-69 | The top-level loop writes entry i and optstring character i from command i, producing the clear-then-write buffers. |
| Build.BuildOptsInPlace | src/pki/command.c:56-93 | The source's clear-then-loop procedure, branching on `active == help_idx`, computes the same state as BuildOpts. |
| UsageRenderer.Label | src/pki/command.c:123 | `--name (-c)` as left in the 64-byte buffer: the full label cut to 63 bytes, and the whole label whenever the name has at most 56 bytes. |
| UsageRenderer.PadRight | src/pki/command.c:124 | `%-Ns` keeps the string, left-justified, and pads it with spaces to width N. A longer string is not cut. |
| UsageRenderer.PrintedLabel | src/pki/command.c:123-124 | What `%s` prints from the label buffer is a prefix of it. It is all of it when neither the name nor the code holds a NUL. |
| UsageRenderer.LabelReadsBack | src/pki/command.c:123-124 | A label built from a NUL-free name and code holds no NUL, so it is printed whole. |
| UsageRenderer.NulCodeLabel | src/pki/command.c:123-124 | The command `x` with a NUL code prints the label `--x (-`: the NUL that `%c` wrote ends the string. |
| UsageRenderer.PaddedLineLayout | src/pki/command.c:124 | A line printed as `<indent>%-Ns <desc>` holds the indent, then the label, then spaces up to column N past the indent, then a space and the description. |
| UsageRenderer.ListingLine | src/pki/command.c:123-124 | A listing line is `  pki `, then the printed label padded to 14 columns, then a space and the description. |
| UsageRenderer.FlagLine | src/pki/command.c:143-146 | A flag line is eight spaces, then the printed label padded to 15 columns, then a space and the flag's help text. |
| UsageRenderer.SynopsisLine | src/pki/command.c:129-139 | The first synopsis line is `  pki --<name> ` followed by the usage text. Every later one is fourteen spaces followed by the usage text. |
| UsageRenderer.Usage | src/pki/command.c:106-150 | The status is nonzero exactly when an error is given, and it is then 1. Every line goes to stderr with an error and to stdout without one. The error line comes first when there is an error, then the banner, then `usage:`. The line count is the header plus one line per command (top-level), or plus the synopsis and flag lines (scoped). |
| UsageRenderer.UsageTopLevelListing | src/pki/command.c:119-126 | In top-level mode everything after the header is exactly the listing. |
| UsageRenderer.UsageErrorListing | src/pki/command.c:112-126 | With an error in top-level mode the status is 1. On stderr come `Error: <msg>`, the banner, `usage:`, and then exactly the listing. |
| UsageRenderer.UsageScopedSynopsis | src/pki/command.c:129-140 | In scoped mode the lines right after the header are exactly the active command's synopsis. |
| UsageRenderer.UsageScopedFlags | src/pki/command.c:141-147 | In scoped mode the synopsis is followed by exactly the flag help, and nothing comes after it. |
| UsageRenderer.UsageScopedLayout | src/pki/command.c:127-147 | In scoped mode the usage text has the header, the active command's synopsis, and then exactly its flag help. There is nothing else, so the line count is the header plus both. |
| Dispatch.AddHelp | src/pki/command.c:168-169 | Both indices are set to the pre-insertion count, and `{help, 'h', "help", ...}` is appended at exactly that index, so the mode is top-level. |
| Dispatch.Invoke | src/pki/command.c:156-179 | Running a handler leaves the state as it is. The help entry, run in top-level mode, returns 0. It prints to stdout the banner, `usage:`, and then exactly the listing of every entry, in order. Any other handler gets its id, the process arguments and the buffers as `build_opts` left them, and its status is returned. |
| Dispatch.Resolve | src/pki/command.c:173-182 | After the parser's answer the registry and the help index are unchanged. The final selection is top-level mode or a registered command. |
| Dispatch.Dispatch | src/pki/command.c:164-183 | Whatever the parser answers, the registry ends with the help entry at the old count and that count is the help index. The final selection is top-level mode or a command registered before dispatch. |
| Dispatch.DispatchParsesTopLevel | src/pki/command.c:168-172 | The parser is shown exactly the top-level table of the registry with help appended, and nothing of an earlier build. When no command's code is NUL it also sees the whole top-level optstring. Dispatch resolves the parser's answer in that top-level state. |
| Dispatch.ResolveSelectsFirstMatch | src/pki/command.c:173-177 | When some entry carries the code, the selected index carries it and no earlier one does. |
| Dispatch.DispatchSelectsFirstMatch | src/pki/command.c:173-177 | `active` ends at the first registry entry, help included, whose code the parser returned. |
| Dispatch.FirstMatchIs | src/pki/command.c:173-177 | An index carrying the code with no earlier index carrying it is the one the scan finds. |
| Dispatch.ResolveForwardsToHandler | src/pki/command.c:176-179 | A selected non-help command has its table rebuilt for its own flags. When none of its flag codes is NUL, its handler gets the process arguments and exactly that optstring and table, and its status is returned. |
| Dispatch.HandlerSeesScopedUsage | src/pki/command.c:127-147 | While a dispatched command's handler runs, `active` is that command and not `help_idx`. So a usage call from the handler prints the header, then the command's synopsis, then exactly its flag help. |
| Dispatch.DispatchActivates | src/pki/command.c:173-177 | The first command carrying the parser's code becomes `active`, which then differs from `help_idx`. Its descriptor is unchanged. |
| Dispatch.DispatchForwardsToHandler | src/pki/command.c:173-180 | A command registered before dispatch and selected by the parser's code runs with the unmodified arguments and exactly its own flags' optstring and table. Dispatch returns its status unchanged. |
| Dispatch.ResolveHelp | src/pki/command.c:156-159 | Selecting the help entry renders the error-free usage text of the top-level state. |
| Dispatch.DispatchHelpListsEveryCommand | src/pki/command.c:156-159 | When the parser answers `h` (as for `-h` or `--help`) and no registered command claims `h`, the status is 0. On stdout come the banner, `usage:`, and the listing of every entry, help included, in registration order. |
| Dispatch.ResolveNoMatch | src/pki/command.c:182 | A code no entry carries renders the usage text with "invalid operation" and leaves the state as it is. |
| Dispatch.ResolveInvalidOperation | src/pki/command.c:182 | A code no entry carries gives status 1. On stderr come `Error: invalid operation`, the banner, `usage:`, and the full listing, and the state is unchanged. |
| Dispatch.DispatchInvalidOperation | src/pki/command.c:182 | When the parser's code matches no entry, help included, the status is 1. On stderr come `Error: invalid operation`, the banner, `usage:`, and the listing of the registry with help, and the mode stays top-level. |
| Dispatch.CapacityFitsDispatch | src/pki/command.c:46-51 | With the corrected sizes, any registry with room for help and its sentinel fits dispatch, and so does every command with fewer flags than the option limit, because three optstring bytes per entry suffice. |
| Dispatch.CapacityAsWrittenOverflows | src/pki/command.c:46 | With the size as declared and limits 11 and 10, the table has one entry. One registered command plus help already needs two. |

## Left out

- `getopt_long`: its internals (`optind`, argument permutation, error printing) are not modelled. It is the parameter `Dispatch.Parser`, which returns one code.
- Subcommand handlers: they are not modelled. They are the parameter `Dispatch.Handlers`, and the value they return is propagated. The option table a handler reads through the global buffer is passed to it explicitly.
- Output: real `FILE*` I/O is replaced by the returned lines, each tagged with its stream. `VERSION` is an opaque string parameter.
- Sentinel-terminated arrays: the `cmds`, `line` and `options` arrays end in a null entry in the source. The model uses sequences of known length instead. The source's need for an extra zeroed `cmds` slot after the help entry is not modelled.
- The limits: `MAX_COMMANDS` and `MAX_OPTIONS` are defined in `command.h`, which is not part of this model, so they are parameters of `Registry.Init`.
- Registry.Init: sizes the buffers with the corrected `CBuffers.Capacity`, not with the declaration at lines 46 and 51. It is the corrected half of the row under "## Findings". `Registry.InitAsWritten` is the declaration as written.
- UsageRenderer.Label: cuts at 63 `char`s, which are 63 bytes only for ASCII text. Multi-byte UTF-8 names, and a cut that splits one, are not modelled.
- UsageRenderer.PadRight: pads to a width in `char`s, which equals the byte width of `%-Ns` only for ASCII text.
- Text fields holding a NUL: names, descriptions, usage lines, the error and `VERSION` are C strings, so they hold none. The model does not cut them at a NUL. Only the NUL a code can put into the label buffer is modelled.
- Registry.Register: requires room in the command array. The source writes past the array without a check, which is undefined behaviour and is not modelled.
- Build.BuildOpts: requires that both buffers have room for the build and its terminator. A longer build writes past the buffers. A build that exactly fills one stays in bounds, but it leaves no terminator, so `getopt_long` reads past the end. Neither case is modelled.
- Dispatch.Dispatch: requires room for the help entry and for every table it may build, with its terminator (`Dispatch.DispatchFits`), for the same reasons.
- Build.BuildOpts: the optstring read-back is stated only when no code is NUL. A NUL code would cut the C string short, and the model does not describe what the parser then sees.
- Build.TableAgreesWithOptstring: holds only when no code is a colon or NUL, which is also all the colon convention can express.
- Dispatch.DispatchForwardsToHandler, Dispatch.ResolveForwardsToHandler: stated only when none of the selected command's flag codes is NUL (`Build.FlagCodesAvoid`), for the same read-back reason.
- Dispatch.Invoke: what a handler prints is not part of `Outcome.output`, because a handler is modelled by its status alone. That includes the usage text it prints through `command_usage` in the scoped state. Within this model only help and the invalid-operation path print, so `Dispatch.DispatchForwardsToHandler` and `Dispatch.ResolveForwardsToHandler` state an empty output. `Dispatch.HandlerSeesScopedUsage` states what such a scoped usage call prints.
- Dispatch.DispatchParsesTopLevel: the top-level optstring the parser sees is stated only when no command's code is NUL, for the same read-back reason. The other dispatch lemmas hold for any codes.
- `ArgMode` has exactly three values. The switch's `default:` branch, for an `arg` outside getopt's three constants, is not modelled.
- `char` signedness, and the conversion of `op` to `int` when compared with getopt's result, are not modelled. A code compares as its character value.

## Findings

| source | as written | input that shows it | evidently intended | confidence | as-written member | corrected member |
|---|---|---|---|---|---|---|
| src/pki/command.c:46-51 | `MAX_COMMANDS > MAX_OPTIONS ?: MAX_OPTIONS` uses GNU `a ?: b`. That yields the comparison itself (1) when it is true, so the table has 1 entry and the optstring 3 bytes whenever `MAX_COMMANDS > MAX_OPTIONS`. | `MAX_COMMANDS = 11`, `MAX_OPTIONS = 10`, one registered command: the top-level table needs 2 entries (the command and help) plus a terminator. | the larger of the two limits, `MAX_COMMANDS > MAX_OPTIONS ? MAX_COMMANDS : MAX_OPTIONS` | not executed; latent unless `MAX_COMMANDS > MAX_OPTIONS` in `command.h`, which is not part of this model | CBuffers.CapacityAsWritten, Registry.InitAsWritten, Dispatch.CapacityAsWrittenOverflows | CBuffers.Capacity, Registry.Init, Dispatch.CapacityFitsDispatch |

=== FILE: buffers.dfy ===
/**
 The fixed-size C buffers behind the option table and the optstring: how
 they are cleared and filled, how a reader that stops at the terminator
 sees them, and how large they are declared.
 */
module CBuffers {
  import opened PkiTypes

  /** A buffer of n cells after `memset` to the blank value and a write of
      xs at its front. */
  function Fill<T>(xs: seq<T>, blank: T, n: nat): (r: seq<T>)
    requires |xs| <= n
    ensures |r| == n
    ensures r[..|xs|] == xs
    ensures forall i | |xs| <= i < n :: r[i] == blank
  {
    xs + seq(n - |xs|, _ => blank)
  }

  /** The string a C reader sees in a char buffer: everything before the
      first NUL (or the whole buffer when it holds none). */
  function CString(buf: seq<char>): (r: string)
    ensures |r| <= |buf| && r == buf[..|r|]
    ensures forall i | 0 <= i < |r| :: r[i] != '\0'
    ensures |r| < |buf| ==> buf[|r|] == '\0'
  {
    if |buf| == 0 || buf[0] == '\0' then [] else [buf[0]] + CString(buf[1..])
  }

  /** The option table getopt_long sees in a slot buffer: the entries
      before the first all-zero slot. */
  function Table(buf: seq<OptSlot>): (r: seq<OptEntry>)
    ensures |r| <= |buf|
    ensures forall i | 0 <= i < |r| :: buf[i] == Slot(r[i])
    ensures |r| < |buf| ==> buf[|r|] == Empty
  {
    if |buf| == 0 || buf[0] == Empty then [] else [buf[0].entry] + Table(buf[1..])
  }

  /** A NUL-free string written into a cleared buffer with room for its
      terminator reads back unchanged: no byte of an earlier content
      survives the clear. */
  lemma CStringOfFill(s: string, n: nat)
    requires forall i | 0 <= i < |s| :: s[i] != '\0'
    requires |s| < n
    ensures CString(Fill(s, '\0', n)) == s
  {
    var buf := Fill(s, '\0', n);
    var r := CString(buf);
    assert forall i | 0 <= i < |s| :: buf[i] == s[i] && buf[i] != '\0';
    assert buf[|s|] == '\0';
  }

  /** A buffer holding no NUL reads back whole. */
  lemma CStringOfNulFree(buf: seq<char>)
    requires forall i | 0 <= i < |buf| :: buf[i] != '\0'
    ensures CString(buf) == buf
  {
  }

  /** Entries written into a cleared slot buffer with room for the
      terminating slot read back as exactly those entries. */
  lemma TableOfFill(entries: seq<OptEntry>, n: nat)
    requires |entries| < n
    ensures Table(Fill(Slots(entries), Empty, n)) == entries
  {
    var buf := Fill(Slots(entries), Empty, n);
    var r := Table(buf);
    assert forall i | 0 <= i < |entries| :: buf[i] == Slot(entries[i]);
    assert buf[|entries|] == Empty;
  }

  /** The filled slots holding entries, one per entry. */
  function Slots(entries: seq<OptEntry>): (r: seq<OptSlot>)
    ensures |r| == |entries|
    ensures forall i | 0 <= i < |r| :: r[i] == Slot(entries[i])
  {
    seq(|entries|, i requires 0 <= i < |entries| => Slot(entries[i]))
  }

  /** The option table's entry count exactly as declared,
      `MAX_COMMANDS > MAX_OPTIONS ?: MAX_OPTIONS`. GNU's `a ?: b` yields `a`
      when it is nonzero, and a comparison is 0 or 1, so this is 1 whenever
      there are more commands than options. */
  function CapacityAsWritten(maxCommands: nat, maxOptions: nat): (r: nat)
    ensures maxCommands > maxOptions ==> r == 1
    ensures maxCommands <= maxOptions ==> r == maxOptions
  {
    var cond := if maxCommands > maxOptions then 1 else 0;
    if cond != 0 then cond else maxOptions
  }

  /** The larger of two counts. */
  function Max(a: nat, b: nat): nat
  {
    if a < b then b else a
  }

  /** The evidently intended entry count: the larger of the two limits, so
      the table holds either a top-level or a scoped build. */
  function Capacity(maxCommands: nat, maxOptions: nat): (r: nat)
    ensures r >= maxCommands && r >= maxOptions
    ensures r == maxCommands || r == maxOptions
  {
    Max(maxCommands, maxOptions)
  }

  /** The two sizings agree when commands do not outnumber options, and
      the declared one is smaller than the command limit otherwise. */
  lemma CapacityAsWrittenVersusIntended(maxCommands: nat, maxOptions: nat)
    ensures maxCommands <= maxOptions ==>
              CapacityAsWritten(maxCommands, maxOptions) == Capacity(maxCommands, maxOptions)
    ensures maxCommands > maxOptions && maxCommands > 1 ==>
              CapacityAsWritten(maxCommands, maxOptions) < maxCommands
  {
  }
}

=== FILE: build.dfy ===
/**
 build_opts: turning the registry and the active selection into the
 getopt_long option table and optstring, both rebuilt from cleared
 buffers on every call.
 */
module Build {
  import opened PkiTypes
  import opened CBuffers
  import opened OptString

  /** The top-level table: one entry per command, named after it, taking
      no value (the cleared has_arg), with its code as val. */
  function TopLevelEntries(cmds: seq<Command>): seq<OptEntry>
  {
    seq(|cmds|, i requires 0 <= i < |cmds| => OptEntry(cmds[i].name, NoArgument, cmds[i].code as int))
  }

  /** The scoped table: one entry per flag, copying name, mode and code. */
  function ScopedEntries(flags: seq<Flag>): seq<OptEntry>
  {
    seq(|flags|, i requires 0 <= i < |flags| => OptEntry(flags[i].name, flags[i].arg, flags[i].code as int))
  }

  /** The entries the active selection asks for. */
  function ActiveEntries(st: Pki): seq<OptEntry>
    requires st.Selected()
  {
    if st.TopLevel() then TopLevelEntries(st.cmds) else ScopedEntries(st.cmds[st.active].flags)
  }

  /** The optstring the active selection asks for. */
  function ActiveOptstring(st: Pki): string
    requires st.Selected()
  {
    if st.TopLevel() then TopLevelOptstring(st.cmds) else ScopedOptstring(st.cmds[st.active].flags)
  }

  /** No command's code is c. */
  predicate CommandCodesAvoid(cmds: seq<Command>, c: char)
  {
    forall i | 0 <= i < |cmds| :: cmds[i].code != c
  }

  /** No flag's code is c. */
  predicate FlagCodesAvoid(flags: seq<Flag>, c: char)
  {
    forall i | 0 <= i < |flags| :: flags[i].code != c
  }

  /** No code the active selection hands to the parser is c. */
  predicate CodesAvoid(st: Pki, c: char)
    requires st.Selected()
  {
    if st.TopLevel() then CommandCodesAvoid(st.cmds, c) else FlagCodesAvoid(st.cmds[st.active].flags, c)
  }

  /** Both buffers take the build with a terminator to spare: the
      all-zero entry getopt_long stops at and the optstring's NUL. */
  predicate Fits(st: Pki)
    requires st.Selected()
  {
    |ActiveEntries(st)| < |st.opts| && |ActiveOptstring(st)| < |st.optstring|
  }

  /** The option table buffer after build_opts: cleared, then the active
      entries written at its front. */
  function BuiltTable(st: Pki): (r: seq<OptSlot>)
    requires st.Selected() && Fits(st)
    ensures |r| == |st.opts|
    ensures Table(r) == ActiveEntries(st)
    ensures forall i | |ActiveEntries(st)| <= i < |r| :: r[i] == Empty
  {
    var entries := ActiveEntries(st);
    TableOfFill(entries, |st.opts|);
    assert |Slots(entries)| == |entries|;
    Fill(Slots(entries), Empty, |st.opts|)
  }

  /** The optstring buffer after build_opts: cleared, then the active
      optstring written at its front. */
  function BuiltOptstring(st: Pki): (r: seq<char>)
    requires st.Selected() && Fits(st)
    ensures |r| == |st.optstring|
    ensures CodesAvoid(st, '\0') ==> CString(r) == ActiveOptstring(st)
    ensures forall i | |ActiveOptstring(st)| <= i < |r| :: r[i] == '\0'
  {
    OptstringReadsBack(st);
    Fill(ActiveOptstring(st), '\0', |st.optstring|)
  }

  /** build_opts: clear both buffers, then write the active selection's
      table and optstring at their fronts. The parser reads back exactly
      the selection's entries and (codes being NUL-free) its optstring;
      every cell past them is zero, whatever the buffers held before; the
      registry and the selection are untouched. */
  function BuildOpts(st: Pki): (r: Pki)
    requires st.Selected() && Fits(st)
    ensures r == st.(opts := r.opts, optstring := r.optstring)
    ensures |r.opts| == |st.opts| && |r.optstring| == |st.optstring|
    ensures Table(r.opts) == ActiveEntries(st)
    ensures CodesAvoid(st, '\0') ==>
              CString(r.optstring) == ActiveOptstring(st)
    ensures forall i | |ActiveEntries(st)| <= i < |r.opts| :: r.opts[i] == Empty
    ensures forall i | |ActiveOptstring(st)| <= i < |r.optstring| :: r.optstring[i] == '\0'
  {
    st.(opts := BuiltTable(st), optstring := BuiltOptstring(st))
  }

  /** With NUL-free codes the cleared-and-filled optstring buffer reads
      back as the active optstring. */
  lemma OptstringReadsBack(st: Pki)
    requires st.Selected() && Fits(st)
    ensures CodesAvoid(st, '\0') ==>
              CString(Fill(ActiveOptstring(st), '\0', |st.optstring|)) == ActiveOptstring(st)
  {
    if CodesAvoid(st, '\0') {
      ActiveOptstringNulFree(st);
      CStringOfFill(ActiveOptstring(st), |st.optstring|);
    }
  }

  /** The optstring holds no NUL when no code is NUL: colons are the only
      other characters in it. */
  lemma ActiveOptstringNulFree(st: Pki)
    requires st.Selected()
    requires CodesAvoid(st, '\0')
    ensures forall i | 0 <= i < |ActiveOptstring(st)| :: ActiveOptstring(st)[i] != '\0'
  {
    if !st.TopLevel() {
      var flags := st.cmds[st.active].flags;
      forall i | 0 <= i < |ScopedOptstring(flags)|
        ensures ScopedOptstring(flags)[i] != '\0'
      {
        var c := ScopedOptstring(flags)[i];
        ScopedOptstringChars(flags, c);
      }
    }
  }

  /** A build depends on the registry and the selection only: stale
      buffer contents never reach the result, so building twice in a row
      gives the same table and optstring as building once. */
  lemma BuildOptsIgnoresBuffers(st: Pki, opts: seq<OptSlot>, optstring: seq<char>)
    requires st.Selected() && Fits(st)
    requires |opts| == |st.opts| && |optstring| == |st.optstring|
    ensures BuildOpts(st.(opts := opts, optstring := optstring)) == BuildOpts(st)
    ensures BuildOpts(BuildOpts(st)) == BuildOpts(st)
  {
  }

  /** The two artifacts describe the same options: reading the optstring
      back with the colon convention gives, entry for entry, the code and
      the argument mode of the table, provided no code is a colon or NUL. */
  lemma TableAgreesWithOptstring(st: Pki)
    requires st.Selected() && Fits(st)
    requires CodesAvoid(st, ':') && CodesAvoid(st, '\0')
    ensures var r := BuildOpts(st);
            var p := ParseOptstring(CString(r.optstring));
            var t := Table(r.opts);
            |p| == |t| && forall i | 0 <= i < |p| :: p[i].code as int == t[i].val && p[i].arg == t[i].hasArg
  {
    if st.TopLevel() {
      TopLevelOptstringParses(st.cmds);
    } else {
      var flags := st.cmds[st.active].flags;
      ScopedOptstringParses(flags);
    }
  }

  /** Writing one more element at the end of a filled prefix. */
  lemma FillPush<T>(xs: seq<T>, x: T, blank: T, n: nat)
    requires |xs| < n
    ensures Fill(xs, blank, n)[|xs| := x] == Fill(xs + [x], blank, n)
  {
  }

  /** The optstring of one flag more. */
  lemma ScopedOptstringSnoc(flags: seq<Flag>, i: nat)
    requires i < |flags|
    ensures ScopedOptstring(flags[..i + 1]) ==
              ScopedOptstring(flags[..i]) + [flags[i].code] + Colons(flags[i].arg)
    ensures |ScopedOptstring(flags[..i + 1])| <= |ScopedOptstring(flags)|
  {
    assert flags[..i + 1] == flags[..i] + [flags[i]];
    ScopedOptstringAppend(flags[..i], [flags[i]]);
    assert [flags[i]][1..] == [];
    assert flags == flags[..i + 1] + flags[i + 1..];
    ScopedOptstringAppend(flags[..i + 1], flags[i + 1..]);
  }

  /** The top-level loop of build_opts: entry i and optstring character
      i are command i's, written over cleared buffers of the given sizes. */
  method FillTopLevel(cmds: seq<Command>, nOpts: nat, nStr: nat) returns (opts: seq<OptSlot>, os: seq<char>)
    requires |cmds| < nOpts && |cmds| < nStr
    ensures opts == Fill(Slots(TopLevelEntries(cmds)), Empty, nOpts)
    ensures os == Fill(TopLevelOptstring(cmds), '\0', nStr)
  {
    opts := Fill([], Empty, nOpts);
    os := Fill([], '\0', nStr);
    var i := 0;
    while i < |cmds|
      invariant 0 <= i <= |cmds|
      invariant opts == Fill(Slots(TopLevelEntries(cmds[..i])), Empty, nOpts)
      invariant os == Fill(TopLevelOptstring(cmds[..i]), '\0', nStr)
    {
      var e := Slot(OptEntry(cmds[i].name, NoArgument, cmds[i].code as int));
      FillPush(Slots(TopLevelEntries(cmds[..i])), e, Empty, nOpts);
      FillPush(TopLevelOptstring(cmds[..i]), cmds[i].code, '\0', nStr);
      opts := opts[i := e];
      os := os[i := cmds[i].code];
      assert Slots(TopLevelEntries(cmds[..i + 1])) == Slots(TopLevelEntries(cmds[..i])) + [e];
      assert TopLevelOptstring(cmds[..i + 1]) == TopLevelOptstring(cmds[..i]) + [cmds[i].code];
      i := i + 1;
    }
    assert cmds[..i] == cmds;
  }

  /** The scoped loop of build_opts: entry i copies flag i, and the
      optstring grows from position `pos` by the code and then, an optional
      flag's first colon falling through to a required flag's, its colons. */
  method FillScoped(flags: seq<Flag>, nOpts: nat, nStr: nat) returns (opts: seq<OptSlot>, os: seq<char>)
    requires |flags| < nOpts && |ScopedOptstring(flags)| < nStr
    ensures opts == Fill(Slots(ScopedEntries(flags)), Empty, nOpts)
    ensures os == Fill(ScopedOptstring(flags), '\0', nStr)
  {
    opts := Fill([], Empty, nOpts);
    os := Fill([], '\0', nStr);
    var i, pos := 0, 0;
    while i < |flags|
      invariant 0 <= i <= |flags|
      invariant pos == |ScopedOptstring(flags[..i])| <= |ScopedOptstring(flags)|
      invariant opts == Fill(Slots(ScopedEntries(flags[..i])), Empty, nOpts)
      invariant os == Fill(ScopedOptstring(flags[..i]), '\0', nStr)
    {
      var f := flags[i];
      var e := Slot(OptEntry(f.name, f.arg, f.code as int));
      var prefix := ScopedOptstring(flags[..i]);
      ScopedOptstringSnoc(flags, i);
      FillPush(Slots(ScopedEntries(flags[..i])), e, Empty, nOpts);
      opts := opts[i := e];
      assert Slots(ScopedEntries(flags[..i + 1])) == Slots(ScopedEntries(flags[..i])) + [e];
      FillPush(prefix, f.code, '\0', nStr);
      os := os[pos := f.code];
      pos := pos + 1;
      var written := prefix + [f.code];
      if f.arg == OptionalArgument {
        FillPush(written, ':', '\0', nStr);
        os := os[pos := ':'];
        pos := pos + 1;
        written := written + [':'];
      }
      if f.arg == OptionalArgument || f.arg == RequiredArgument {
        FillPush(written, ':', '\0', nStr);
        os := os[pos := ':'];
        pos := pos + 1;
        written := written + [':'];
      }
      assert written == prefix + [f.code] + Colons(f.arg);
      i := i + 1;
    }
    assert flags[..i] == flags;
  }

  /** build_opts as the C code runs it: clear both buffers, then fill them
      by the loop of the current mode. It computes the same state as
      BuildOpts. */
  method BuildOptsInPlace(st: Pki) returns (r: Pki)
    requires st.Selected() && Fits(st)
    ensures r == BuildOpts(st)
  {
    var opts, os;
    if st.active == st.helpIdx {
      opts, os := FillTopLevel(st.cmds, |st.opts|, |st.optstring|);
    } else {
      opts, os := FillScoped(st.cmds[st.active].flags, |st.opts|, |st.optstring|);
    }
    r := st.(opts := opts, optstring := os);
  }
}

=== FILE: dispatch.dfy ===
/**
 command_dispatch: append the implicit help entry, build the top-level
 table, let the parser pick one code, and either hand the process
 arguments to the first command with that code (after rebuilding the
 table for it) or report an invalid operation.
 */
module Dispatch {
  import opened PkiTypes
  import opened CBuffers
  import opened OptString
  import opened Registry
  import opened Build
  import opened UsageRenderer

  /** getopt_long, outside this model: from the process arguments, the
      optstring and the option table it reads, one option code (or a value
      no code equals, for the end of options or an unknown option). */
  type Parser = (seq<string>, string, seq<OptEntry>) -> int

  /** The subcommand handlers, outside this model: from a handler's id,
      the process arguments and the optstring and option table build_opts
      left for it, an exit status. */
  type Handlers = (nat, seq<string>, string, seq<OptEntry>) -> int

  /** The message command_dispatch reports for a code no command carries. */
  const InvalidOperation := "invalid operation"

  /** The exit status, the usage lines written, and the state left behind. */
  datatype Outcome = Outcome(status: int, output: seq<Line>, final: Pki)

  /** The registry with the implicit help entry appended. */
  function WithHelp(cmds: seq<Command>): seq<Command>
  {
    cmds + [HelpCommand()]
  }

  /** The first step of dispatch: both indices set to the current count,
      then the help entry registered at exactly that index. */
  function AddHelp(st: Pki): (r: Pki)
    requires |st.cmds| < st.maxCommands
    ensures r.cmds == WithHelp(st.cmds)
    ensures r.helpIdx == |st.cmds| && r.cmds[r.helpIdx] == HelpCommand()
    ensures r.TopLevel()
  {
    Register(st.(active := |st.cmds|, helpIdx := |st.cmds|), HelpCommand())
  }

  /** The buffers take every selection dispatch can make: the top-level
      table and each command's scoped table, with their terminators. */
  predicate AllFit(st: Pki)
  {
    && |st.cmds| < |st.opts|
    && |st.cmds| < |st.optstring|
    && forall i | 0 <= i < |st.cmds| ::
         |st.cmds[i].flags| < |st.opts| && |ScopedOptstring(st.cmds[i].flags)| < |st.optstring|
  }

  /** Room for the help entry in the command array, and for every
      selection of the registry with help appended in the buffers. */
  predicate DispatchFits(st: Pki)
  {
    |st.cmds| < st.maxCommands && AllFit(AddHelp(st))
  }

  /** Run the selected command's handler: the help entry renders the usage
      text without an error; any other handler gets the unmodified process
      arguments and the buffers as build_opts left them. */
  function Invoke(st: Pki, i: nat, argv: seq<string>, version: string, handlers: Handlers): (r: Outcome)
    requires i < |st.cmds| && st.active == i
    ensures r.final == st
    ensures st.cmds[i].call == Help && st.TopLevel() ==>
              && r.status == 0
              && |r.output| == 2 + |st.cmds|
              && (forall k | 0 <= k < |r.output| :: r.output[k].stream == Stdout)
              && r.output[0].text == Banner(version)
              && r.output[1].text == "usage:"
              && r.output[2..] == Listing(st.cmds, Stdout)
    ensures st.cmds[i].call.Extern? ==>
              && r.output == []
              && r.status == handlers(st.cmds[i].call.id, argv, CString(st.optstring), Table(st.opts))
  {
    match st.cmds[i].call
    case Help =>
      var u := Usage(st, None, version);
      Outcome(u.status, u.lines, st)
    case Extern(id) =>
      Outcome(handlers(id, argv, CString(st.optstring), Table(st.opts)), [], st)
  }

  /** The second half of dispatch, from the parser's code on: select the
      first command carrying it, rebuild the tables for it and run its
      handler, or render the usage text with "invalid operation". */
  function Resolve(st: Pki, op: int, argv: seq<string>, version: string, handlers: Handlers): (r: Outcome)
    requires st.TopLevel() && AllFit(st)
    ensures r.final.cmds == st.cmds && r.final.helpIdx == st.helpIdx
    ensures r.final.TopLevel() || r.final.active < |st.cmds|
  {
    match FindCommand(st.cmds, op)
    case Some(i) =>
      Invoke(BuildOpts(st.(active := i)), i, argv, version, handlers)
    case None =>
      var u := Usage(st, Some(InvalidOperation), version);
      Outcome(u.status, u.lines, st)
  }

  /** Room for the help entry is room for every selection after it. */
  lemma AddHelpFits(st: Pki)
    requires DispatchFits(st)
    ensures AllFit(AddHelp(st)) && Fits(AddHelp(st))
  {
  }

  /** command_dispatch. Whatever the parser answers, the registry ends with
      the help entry at the old count, that count is the help index, and
      the final selection is the top-level mode or a command registered
      before dispatch. */
  function Dispatch(st: Pki, argv: seq<string>, version: string, parse: Parser, handlers: Handlers): (r: Outcome)
    requires DispatchFits(st)
    ensures r.final.cmds == WithHelp(st.cmds)
    ensures r.final.helpIdx == |st.cmds|
    ensures r.final.TopLevel() || r.final.active < |st.cmds|
  {
    AddHelpFits(st);
    Resolve(BuildOpts(AddHelp(st)), ParsedCode(st, argv, parse), argv, version, handlers)
  }

  /** The code the parser returns in dispatch: what it answers when shown
      the buffers dispatch has just built. */
  function ParsedCode(st: Pki, argv: seq<string>, parse: Parser): int
    requires DispatchFits(st)
  {
    AddHelpFits(st);
    var st2 := BuildOpts(AddHelp(st));
    parse(argv, CString(st2.optstring), Table(st2.opts))
  }

  /** The parser's answer on the top-level table and optstring of the
      registry with help appended. */
  function TopLevelCode(st: Pki, argv: seq<string>, parse: Parser): int
  {
    var cmds := WithHelp(st.cmds);
    parse(argv, TopLevelOptstring(cmds), TopLevelEntries(cmds))
  }

  /** Dispatch shows the parser the top-level table of the registry with
      help appended, nothing of an earlier build, and (when no command's
      code is NUL) the whole top-level optstring; it resolves the answer in
      that top-level state. */
  lemma DispatchParsesTopLevel(st: Pki, argv: seq<string>, version: string, parse: Parser, handlers: Handlers)
    requires DispatchFits(st)
    ensures var st2 := BuildOpts(AddHelp(st));
            && st2.cmds == WithHelp(st.cmds) && st2.TopLevel() && st2.helpIdx == |st.cmds| && AllFit(st2)
            && Table(st2.opts) == TopLevelEntries(WithHelp(st.cmds))
            && (CommandCodesAvoid(st.cmds, '\0') ==>
                  CString(st2.optstring) == TopLevelOptstring(WithHelp(st.cmds)) &&
                  ParsedCode(st, argv, parse) == TopLevelCode(st, argv, parse))
            && Dispatch(st, argv, version, parse, handlers) ==
                 Resolve(st2, ParsedCode(st, argv, parse), argv, version, handlers)
  {
    var st1 := AddHelp(st);
    AddHelpFits(st);
    if CommandCodesAvoid(st.cmds, '\0') {
      assert CodesAvoid(st1, '\0') by {
        forall i | 0 <= i < |st1.cmds|
          ensures st1.cmds[i].code != '\0'
        {
          if i < |st.cmds| {
            assert st1.cmds[i] == st.cmds[i];
          }
        }
      }
    }
  }

  /** In the top-level state, the first command carrying the parser's code
      is selected. */
  lemma ResolveSelectsFirstMatch(st: Pki, op: int, argv: seq<string>, version: string, handlers: Handlers)
    requires st.TopLevel() && AllFit(st)
    requires exists i | 0 <= i < |st.cmds| :: st.cmds[i].code as int == op
    ensures var r := Resolve(st, op, argv, version, handlers);
            && 0 <= r.final.active < |st.cmds|
            && st.cmds[r.final.active].code as int == op
            && forall j | 0 <= j < r.final.active :: st.cmds[j].code as int != op
  {
    var i := FindCommand(st.cmds, op).value;
    var st3 := BuildOpts(st.(active := i));
    assert Resolve(st, op, argv, version, handlers) == Invoke(st3, i, argv, version, handlers);
  }

  /** The first entry of the registry (help included) whose code the
      parser returned is the one dispatch selects. */
  lemma DispatchSelectsFirstMatch(st: Pki, argv: seq<string>, version: string, parse: Parser, handlers: Handlers)
    requires DispatchFits(st)
    requires exists i | 0 <= i < |WithHelp(st.cmds)| :: WithHelp(st.cmds)[i].code as int == ParsedCode(st, argv, parse)
    ensures var r := Dispatch(st, argv, version, parse, handlers);
            var op := ParsedCode(st, argv, parse);
            var cmds := WithHelp(st.cmds);
            && 0 <= r.final.active < |cmds|
            && cmds[r.final.active].code as int == op
            && forall j | 0 <= j < r.final.active :: cmds[j].code as int != op
  {
    DispatchParsesTopLevel(st, argv, version, parse, handlers);
    ResolveSelectsFirstMatch(BuildOpts(AddHelp(st)), ParsedCode(st, argv, parse), argv, version, handlers);
  }

  /** A command registered before dispatch and selected by the parser's
      code runs with the unmodified process arguments and with exactly its
      own flags' optstring and table; its status is dispatch's status. */
  lemma DispatchForwardsToHandler(st: Pki, argv: seq<string>, version: string, parse: Parser,
                                  handlers: Handlers, i: nat, id: nat)
    requires DispatchFits(st)
    requires i < |st.cmds| && st.cmds[i].call == Extern(id)
    requires FlagCodesAvoid(st.cmds[i].flags, '\0')
    requires st.cmds[i].code as int == ParsedCode(st, argv, parse)
    requires forall j | 0 <= j < i :: st.cmds[j].code != st.cmds[i].code
    ensures var r := Dispatch(st, argv, version, parse, handlers);
            && r.status == handlers(id, argv, ScopedOptstring(st.cmds[i].flags), ScopedEntries(st.cmds[i].flags))
            && r.output == []
            && r.final.active == i
  {
    DispatchParsesTopLevel(st, argv, version, parse, handlers);
    var st2 := BuildOpts(AddHelp(st));
    var op := ParsedCode(st, argv, parse);
    assert st2.cmds[i] == st.cmds[i];
    forall j | 0 <= j < i
      ensures st2.cmds[j].code as int != op
    {
      assert st2.cmds[j] == st.cmds[j];
    }
    FirstMatchIs(st2.cmds, op, i);
    ResolveForwardsToHandler(st2, ParsedCode(st, argv, parse), argv, version, handlers, i, id);
  }

  /** While a dispatched command's handler runs, the state is scoped to
      that command: a usage call from the handler prints its synopsis and
      then exactly its flag help, on the stream the error decides. */
  lemma HandlerSeesScopedUsage(st: Pki, argv: seq<string>, version: string, parse: Parser,
                               handlers: Handlers, i: nat, error: Option<string>)
    requires DispatchFits(st)
    requires i < |st.cmds| && st.cmds[i].code as int == ParsedCode(st, argv, parse)
    requires forall j | 0 <= j < i :: st.cmds[j].code != st.cmds[i].code
    ensures var f := Dispatch(st, argv, version, parse, handlers).final;
            && f.active == i && !f.TopLevel()
            && ScopedLayout(Usage(f, error, version), st.cmds[i], error)
  {
    var f := Dispatch(st, argv, version, parse, handlers).final;
    DispatchActivates(st, argv, version, parse, handlers, i);
    UsageScopedLayout(f, error, version);
  }

  /** Dispatch leaves `active` at the first command carrying the parser's
      code, which is then not the help index. */
  lemma DispatchActivates(st: Pki, argv: seq<string>, version: string, parse: Parser,
                          handlers: Handlers, i: nat)
    requires DispatchFits(st)
    requires i < |st.cmds| && st.cmds[i].code as int == ParsedCode(st, argv, parse)
    requires forall j | 0 <= j < i :: st.cmds[j].code != st.cmds[i].code
    ensures var f := Dispatch(st, argv, version, parse, handlers).final;
            f.active == i && !f.TopLevel() && f.cmds[i] == st.cmds[i]
  {
    assert WithHelp(st.cmds)[i] == st.cmds[i];
    DispatchSelectsFirstMatch(st, argv, version, parse, handlers);
  }

  /** The scan stops at the first index carrying the code. */
  lemma FirstMatchIs(cmds: seq<Command>, op: int, i: nat)
    requires i < |cmds| && cmds[i].code as int == op
    requires forall j | 0 <= j < i :: cmds[j].code as int != op
    ensures FindCommand(cmds, op) == Some(i)
  {
  }

  /** In the top-level state, a selected command other than help gets the
      process arguments and its own flags' optstring and table. */
  lemma ResolveForwardsToHandler(st: Pki, op: int, argv: seq<string>, version: string,
                                 handlers: Handlers, i: nat, id: nat)
    requires st.TopLevel() && AllFit(st)
    requires i < |st.cmds| && i != st.helpIdx && st.cmds[i].call == Extern(id)
    requires FlagCodesAvoid(st.cmds[i].flags, '\0')
    requires FindCommand(st.cmds, op) == Some(i)
    ensures var r := Resolve(st, op, argv, version, handlers);
            && r.status == handlers(id, argv, ScopedOptstring(st.cmds[i].flags), ScopedEntries(st.cmds[i].flags))
            && r.output == []
            && r.final.active == i
  {
    var sel := st.(active := i);
    assert !sel.TopLevel();
    assert CodesAvoid(sel, '\0');
    var st3 := BuildOpts(sel);
    assert Resolve(st, op, argv, version, handlers) == Invoke(st3, i, argv, version, handlers);
  }

  /** `--help` / `-h`, with no registered command claiming 'h': status 0,
      and on stdout the banner, "usage:" and the listing of the registry,
      help included: one line per entry in registration order, each the
      command's listing line (`--name (-c)` and the description, as
      ListingLine states). */
  lemma DispatchHelpListsEveryCommand(st: Pki, argv: seq<string>, version: string, parse: Parser,
                                      handlers: Handlers)
    requires DispatchFits(st)
    requires forall i | 0 <= i < |st.cmds| :: st.cmds[i].code != 'h'
    requires ParsedCode(st, argv, parse) == 'h' as int
    ensures var r := Dispatch(st, argv, version, parse, handlers);
            && r.status == 0
            && (forall k | 0 <= k < |r.output| :: r.output[k].stream == Stdout)
            && |r.output| >= 2
            && r.output[0].text == Banner(version)
            && r.output[1].text == "usage:"
            && r.output[2..] == Listing(WithHelp(st.cmds), Stdout)
  {
    DispatchParsesTopLevel(st, argv, version, parse, handlers);
    var st2 := BuildOpts(AddHelp(st));
    FirstMatchIs(st2.cmds, 'h' as int, |st.cmds|);
    ResolveHelp(st2, argv, version, handlers);
  }

  /** In the top-level state, selecting the help entry renders the usage
      text of that state without an error. */
  lemma ResolveHelp(st: Pki, argv: seq<string>, version: string, handlers: Handlers)
    requires st.TopLevel() && AllFit(st)
    requires 0 <= st.helpIdx < |st.cmds| && st.cmds[st.helpIdx] == HelpCommand()
    requires FindCommand(st.cmds, 'h' as int) == Some(st.helpIdx)
    ensures var r := Resolve(st, 'h' as int, argv, version, handlers);
            var u := Usage(st, None, version);
            r.status == u.status && r.output == u.lines
  {
    var st3 := BuildOpts(st.(active := st.helpIdx));
    assert st3 == st.(opts := st3.opts, optstring := st3.optstring);
    assert Resolve(st, 'h' as int, argv, version, handlers) == Invoke(st3, st.helpIdx, argv, version, handlers);
    assert Usage(st3, None, version) == Usage(st, None, version);
    UsageTopLevelListing(st, None, version);
  }

  /** A parser code that no entry carries (the end of the options, an
      unknown option): status 1, and on stderr the error line, the banner,
      "usage:" and the full top-level listing; the mode stays top-level. */
  lemma DispatchInvalidOperation(st: Pki, argv: seq<string>, version: string, parse: Parser,
                                 handlers: Handlers)
    requires DispatchFits(st)
    requires forall i | 0 <= i < |WithHelp(st.cmds)| :: WithHelp(st.cmds)[i].code as int != ParsedCode(st, argv, parse)
    ensures var r := Dispatch(st, argv, version, parse, handlers);
            && r.status == 1
            && (forall k | 0 <= k < |r.output| :: r.output[k].stream == Stderr)
            && |r.output| >= 3
            && r.output[0].text == "Error: " + InvalidOperation
            && r.output[1].text == Banner(version)
            && r.output[2].text == "usage:"
            && r.output[3..] == Listing(WithHelp(st.cmds), Stderr)
            && r.final.TopLevel()
  {
    DispatchParsesTopLevel(st, argv, version, parse, handlers);
    ResolveInvalidOperation(BuildOpts(AddHelp(st)), ParsedCode(st, argv, parse), argv, version, handlers);
  }

  /** In the top-level state, a code no entry carries renders the error
      usage text of that state and leaves the state as it is. */
  lemma ResolveInvalidOperation(st: Pki, op: int, argv: seq<string>, version: string, handlers: Handlers)
    requires st.TopLevel() && AllFit(st)
    requires forall i | 0 <= i < |st.cmds| :: st.cmds[i].code as int != op
    ensures var r := Resolve(st, op, argv, version, handlers);
            && r.status == 1
            && (forall k | 0 <= k < |r.output| :: r.output[k].stream == Stderr)
            && |r.output| >= 3
            && r.output[0].text == "Error: " + InvalidOperation
            && r.output[1].text == Banner(version)
            && r.output[2].text == "usage:"
            && r.output[3..] == Listing(st.cmds, Stderr)
            && r.final == st
  {
    UsageErrorListing(st, InvalidOperation, version);
    ResolveNoMatch(st, op, argv, version, handlers);
  }

  /** Resolve with a code no entry carries is the usage text with
      "invalid operation". */
  lemma ResolveNoMatch(st: Pki, op: int, argv: seq<string>, version: string, handlers: Handlers)
    requires st.TopLevel() && AllFit(st)
    requires forall i | 0 <= i < |st.cmds| :: st.cmds[i].code as int != op
    ensures var u := Usage(st, Some(InvalidOperation), version);
            Resolve(st, op, argv, version, handlers) == Outcome(u.status, u.lines, st)
  {
    assert FindCommand(st.cmds, op) == None;
  }

  /** Limits under which a registry can be dispatched: the buffers sized
      by Capacity take the top-level table and every command's scoped
      table, each with its terminator. */
  lemma CapacityFitsDispatch(maxCommands: nat, maxOptions: nat, cmds: seq<Command>)
    requires |cmds| + 1 < maxCommands
    requires forall i | 0 <= i < |cmds| :: |cmds[i].flags| < maxOptions
    ensures DispatchFits(Init(maxCommands, maxOptions).(cmds := cmds))
  {
    var st := Init(maxCommands, maxOptions).(cmds := cmds);
    var st1 := AddHelp(st);
    forall i | 0 <= i < |st1.cmds|
      ensures |st1.cmds[i].flags| < |st1.opts| && |ScopedOptstring(st1.cmds[i].flags)| < |st1.optstring|
    {
      if i < |cmds| {
        assert st1.cmds[i] == cmds[i];
      }
    }
  }

  /** The option table as declared holds one entry when MAX_COMMANDS
      exceeds MAX_OPTIONS: with limits 11 and 10, a registry of one command
      already needs two entries (itself and help) at the top level, so it
      cannot be dispatched within the declared buffers. */
  lemma CapacityAsWrittenOverflows()
    ensures var cmds := [Command(Extern(0), 'x', "x", "", [], [])];
            var st := InitAsWritten(11, 10).(cmds := cmds);
            && |st.opts| == 1
            && |TopLevelEntries(WithHelp(cmds))| > |st.opts|
            && !DispatchFits(st)
  {
  }
}

=== FILE: optstring.dfy ===
/**
 The short-option string build_opts hands to getopt_long: one character
 per option, followed by as many colons as its argument mode asks for,
 and the colon convention the parser reads it back with.
 */
module OptString {
  import opened PkiTypes

  /** The colons that follow a flag's code: none, one for a required
      value, two for an optional one. */
  function Colons(arg: ArgMode): (r: string)
    ensures forall i | 0 <= i < |r| :: r[i] == ':'
    ensures |r| == (match arg
                    case NoArgument => 0
                    case RequiredArgument => 1
                    case OptionalArgument => 2)
  {
    match arg
    case NoArgument => ""
    case RequiredArgument => ":"
    case OptionalArgument => "::"
  }

  /** The optstring of a subcommand's flags, in declared order: each flag's
      code, then its colons. Every flag takes one to three characters, so
      three per table entry suffice, and the string opens with the first
      flag's code. */
  function ScopedOptstring(flags: seq<Flag>): (r: string)
    ensures |flags| <= |r| <= 3 * |flags|
    ensures |flags| > 0 ==> r[0] == flags[0].code
  {
    if |flags| == 0 then "" else [flags[0].code] + Colons(flags[0].arg) + ScopedOptstring(flags[1..])
  }

  /** The optstring of the top-level listing: every command's code, in
      registration order, with no colons. */
  function TopLevelOptstring(cmds: seq<Command>): string
  {
    seq(|cmds|, i requires 0 <= i < |cmds| => cmds[i].code)
  }

  /** A short option as the parser reads it from an optstring. */
  datatype ShortOpt = ShortOpt(code: char, arg: ArgMode)

  /** The parser's reading of an optstring: each character is an option;
      one following colon makes its value required, two make it optional. */
  function ParseOptstring(s: string): seq<ShortOpt>
    decreases |s|
  {
    if |s| == 0 then []
    else if |s| >= 3 && s[1] == ':' && s[2] == ':' then
      [ShortOpt(s[0], OptionalArgument)] + ParseOptstring(s[3..])
    else if |s| >= 2 && s[1] == ':' then
      [ShortOpt(s[0], RequiredArgument)] + ParseOptstring(s[2..])
    else
      [ShortOpt(s[0], NoArgument)] + ParseOptstring(s[1..])
  }

  /** What a list of flags asks the parser for: code and mode of each. */
  function FlagShortOpts(flags: seq<Flag>): (r: seq<ShortOpt>)
    ensures |r| == |flags|
    ensures forall i | 0 <= i < |r| :: r[i] == ShortOpt(flags[i].code, flags[i].arg)
  {
    seq(|flags|, i requires 0 <= i < |flags| => ShortOpt(flags[i].code, flags[i].arg))
  }

  /** The short options the top-level listing asks for: every code, none
      of them taking a value. */
  function CommandShortOpts(cmds: seq<Command>): (r: seq<ShortOpt>)
    ensures |r| == |cmds|
    ensures forall i | 0 <= i < |r| :: r[i] == ShortOpt(cmds[i].code, NoArgument)
  {
    seq(|cmds|, i requires 0 <= i < |cmds| => ShortOpt(cmds[i].code, NoArgument))
  }

  /** Building an optstring distributes over concatenation of flag lists,
      which is what lets build_opts append one flag at a time. */
  lemma {:induction false} ScopedOptstringAppend(a: seq<Flag>, b: seq<Flag>)
    ensures ScopedOptstring(a + b) == ScopedOptstring(a) + ScopedOptstring(b)
    decreases |a|
  {
    if |a| == 0 {
      assert a + b == b;
    } else {
      assert (a + b)[1..] == a[1..] + b;
      ScopedOptstringAppend(a[1..], b);
    }
  }

  /** The optstring is exactly as long as the flag list when, and only
      when, no flag takes a value. */
  lemma {:induction false} ScopedOptstringLength(flags: seq<Flag>)
    ensures |ScopedOptstring(flags)| == |flags| <==>
              forall i | 0 <= i < |flags| :: flags[i].arg == NoArgument
    decreases |flags|
  {
    if |flags| > 0 {
      ScopedOptstringLength(flags[1..]);
      if |ScopedOptstring(flags)| == |flags| {
        assert flags[0].arg == NoArgument;
        forall i | 0 <= i < |flags|
          ensures flags[i].arg == NoArgument
        {
          if i > 0 {
            assert flags[1..][i - 1] == flags[i];
          }
        }
      }
      if forall i | 0 <= i < |flags| :: flags[i].arg == NoArgument {
        assert flags[0].arg == NoArgument;
        assert forall i | 0 <= i < |flags[1..]| :: flags[1..][i] == flags[i + 1];
      }
    }
  }

  /** The characters of a flag optstring are codes and colons only. */
  lemma {:induction false} ScopedOptstringChars(flags: seq<Flag>, c: char)
    requires c in ScopedOptstring(flags)
    ensures c == ':' || exists i | 0 <= i < |flags| :: flags[i].code == c
    decreases |flags|
  {
    if |flags| > 0 {
      var rest := ScopedOptstring(flags[1..]);
      assert ScopedOptstring(flags) == [flags[0].code] + Colons(flags[0].arg) + rest;
      if c != ':' && c != flags[0].code {
        assert c in rest;
        ScopedOptstringChars(flags[1..], c);
        var j :| 0 <= j < |flags[1..]| && flags[1..][j].code == c;
        assert flags[j + 1].code == c;
      }
    }
  }

  /** Round trip: when no flag's code is itself a colon, the parser reads
      back from the built optstring exactly the declared flags' codes and
      argument modes, in order. This is what the one-or-two-colon
      convention is for. */
  lemma {:induction false} ScopedOptstringParses(flags: seq<Flag>)
    requires forall i | 0 <= i < |flags| :: flags[i].code != ':'
    ensures ParseOptstring(ScopedOptstring(flags)) == FlagShortOpts(flags)
    decreases |flags|
  {
    if |flags| > 0 {
      var f := flags[0];
      var rest := ScopedOptstring(flags[1..]);
      var s := [f.code] + Colons(f.arg) + rest;
      assert ScopedOptstring(flags) == s;
      assert |rest| > 0 ==> rest[0] == flags[1].code != ':';
      ScopedOptstringParses(flags[1..]);
      match f.arg {
        case NoArgument =>
          assert s[1..] == rest;
        case RequiredArgument =>
          assert s[1] == ':';
          assert s[2..] == rest;
        case OptionalArgument =>
          assert s[1] == ':' && s[2] == ':';
          assert s[3..] == rest;
      }
      assert FlagShortOpts(flags) == [ShortOpt(f.code, f.arg)] + FlagShortOpts(flags[1..]);
    }
  }

  /** The top-level optstring reads back as every command's code, each
      without a value, provided no code is a colon. */
  lemma {:induction false} TopLevelOptstringParses(cmds: seq<Command>)
    requires forall i | 0 <= i < |cmds| :: cmds[i].code != ':'
    ensures ParseOptstring(TopLevelOptstring(cmds)) == CommandShortOpts(cmds)
    decreases |cmds|
  {
    if |cmds| > 0 {
      var s := TopLevelOptstring(cmds);
      assert s[1..] == TopLevelOptstring(cmds[1..]);
      assert |s| >= 2 ==> s[1] == cmds[1].code != ':';
      TopLevelOptstringParses(cmds[1..]);
      assert CommandShortOpts(cmds) == [ShortOpt(cmds[0].code, NoArgument)] + CommandShortOpts(cmds[1..]);
    }
  }

  /** The flags [(a, none), (b, required), (c, optional)] build "ab:c::". */
  lemma ScopedOptstringExample()
    ensures ScopedOptstring([Flag("a", 'a', NoArgument, ""), Flag("b", 'b', RequiredArgument, ""),
                             Flag("c", 'c', OptionalArgument, "")]) == "ab:c::"
  {
    var flags := [Flag("a", 'a', NoArgument, ""), Flag("b", 'b', RequiredArgument, ""),
                  Flag("c", 'c', OptionalArgument, "")];
    assert flags[1..][1..][1..] == [];
  }
}

=== FILE: registry.dfy ===
/**
 The command registry: the initial state, registration, and the
 first-match lookup of a command by its short code.
 */
module Registry {
  import opened PkiTypes
  import opened CBuffers

  /** The state before any command registers: nothing registered, the
      active and help indices both zero (so the mode is top-level), and both
      buffers all zero, sized by the corrected Capacity so that each holds a
      top-level or a scoped build. */
  function Init(maxCommands: nat, maxOptions: nat): (st: Pki)
    ensures st.cmds == [] && st.TopLevel() && st.maxCommands == maxCommands
    ensures |st.opts| >= maxCommands && |st.opts| >= maxOptions
    ensures |st.optstring| == 3 * |st.opts|
    ensures Table(st.opts) == [] && CString(st.optstring) == []
    ensures forall i | 0 <= i < |st.opts| :: st.opts[i] == Empty
    ensures forall i | 0 <= i < |st.optstring| :: st.optstring[i] == '\0'
  {
    var cap := Capacity(maxCommands, maxOptions);
    Pki(maxCommands, [], 0, 0, Fill([], Empty, cap), Fill([], '\0', 3 * cap))
  }

  /** The same state with the buffers sized as declared, by
      CapacityAsWritten: one table entry and three optstring bytes whenever
      there are more commands than options, and otherwise the same state as
      Init. */
  function InitAsWritten(maxCommands: nat, maxOptions: nat): (st: Pki)
    ensures st.cmds == [] && st.TopLevel() && st.maxCommands == maxCommands
    ensures maxCommands > maxOptions ==> |st.opts| == 1 && |st.optstring| == 3
    ensures maxCommands <= maxOptions ==> st == Init(maxCommands, maxOptions)
    ensures forall i | 0 <= i < |st.opts| :: st.opts[i] == Empty
    ensures forall i | 0 <= i < |st.optstring| :: st.optstring[i] == '\0'
  {
    var cap := CapacityAsWritten(maxCommands, maxOptions);
    Pki(maxCommands, [], 0, 0, Fill([], Empty, cap), Fill([], '\0', 3 * cap))
  }

  /** command_register: append the descriptor at index `registered`. The
      count grows by one; earlier entries, their order and the rest of the
      state are untouched. */
  function Register(st: Pki, c: Command): (r: Pki)
    requires |st.cmds| < st.maxCommands
    ensures |r.cmds| == |st.cmds| + 1
    ensures r.cmds[..|st.cmds|] == st.cmds
    ensures r.cmds[|st.cmds|] == c
    ensures r == st.(cmds := r.cmds)
  {
    st.(cmds := st.cmds + [c])
  }

  /** The scan of command_dispatch from index `from` on: the first command
      whose code equals the parser's result. */
  function FindFrom(cmds: seq<Command>, op: int, from: nat): (r: Option<nat>)
    requires from <= |cmds|
    ensures r.Some? ==> from <= r.value < |cmds| && cmds[r.value].code as int == op
    ensures r.Some? ==> forall j | from <= j < r.value :: cmds[j].code as int != op
    ensures r.None? ==> forall j | from <= j < |cmds| :: cmds[j].code as int != op
    decreases |cmds| - from
  {
    if from == |cmds| then None
    else if cmds[from].code as int == op then Some(from)
    else FindFrom(cmds, op, from + 1)
  }

  /** The index command_dispatch selects for a parser result: the first
      registered command with that code, or none when no code matches. */
  function FindCommand(cmds: seq<Command>, op: int): (r: Option<nat>)
    ensures r.Some? ==> r.value < |cmds| && cmds[r.value].code as int == op
    ensures r.Some? ==> forall j | 0 <= j < r.value :: cmds[j].code as int != op
    ensures r.None? <==> forall j | 0 <= j < |cmds| :: cmds[j].code as int != op
  {
    FindFrom(cmds, op, 0)
  }

  /** A command whose code an earlier command already uses is never
      selected: first match wins. */
  lemma ShadowedCommandUnreachable(cmds: seq<Command>, i: nat, j: nat)
    requires i < j < |cmds|
    requires cmds[i].code == cmds[j].code
    ensures FindCommand(cmds, cmds[j].code as int) != Some(j)
    ensures FindCommand(cmds, cmds[j].code as int).Some?
  {
  }

  /** Registering a command never changes which command an already
      matching code selects; a code that matched nothing now selects the
      new command exactly when it carries that code. */
  lemma RegisterPreservesLookup(st: Pki, c: Command, op: int)
    requires |st.cmds| < st.maxCommands
    ensures FindCommand(st.cmds, op).Some? ==>
              FindCommand(Register(st, c).cmds, op) == FindCommand(st.cmds, op)
    ensures FindCommand(st.cmds, op).None? ==>
              FindCommand(Register(st, c).cmds, op) ==
                (if c.code as int == op then Some(|st.cmds|) else None)
  {
    var cmds' := Register(st, c).cmds;
    assert forall j | 0 <= j < |st.cmds| :: cmds'[j] == st.cmds[j];
  }
}

=== FILE: types.dfy ===
/**
 The data model of the pki tool's subcommand registry: subcommand and flag
 descriptors, the getopt-style option table entries built from them, the
 lines written by the usage renderer, and the process-wide state that
 command.c keeps in file-scope variables.
 */
module PkiTypes {

  datatype Option<+T> = None | Some(value: T)

  /** Whether a flag consumes a value: getopt's no_argument,
      required_argument and optional_argument. */
  datatype ArgMode = NoArgument | RequiredArgument | OptionalArgument

  /** One flag a subcommand accepts: long name, short code, argument mode
      and the help text shown in its usage block. */
  datatype Flag = Flag(name: string, code: char, arg: ArgMode, desc: string)

  /** The callable behind a subcommand. The implicit help entry runs the
      usage renderer; every other handler is outside this model and is
      identified by an opaque number. */
  datatype Handler = Help | Extern(id: nat)

  /** A registered subcommand: handler, short code, long name, one-line
      description, usage synopsis lines and its flags, in declared order. */
  datatype Command = Command(call: Handler, code: char, name: string, description: string,
                             lines: seq<string>, flags: seq<Flag>)

  /** The entry command_dispatch appends: `--help` / `-h`. */
  function HelpCommand(): Command
  {
    Command(Help, 'h', "help", "show usage information", [], [])
  }

  /** One entry of a getopt_long option table: name, has_arg and val. */
  datatype OptEntry = OptEntry(name: string, hasArg: ArgMode, val: int)

  /** A slot of the fixed-size option table buffer; a cleared slot is the
      all-zero entry that terminates the table. */
  datatype OptSlot = Empty | Slot(entry: OptEntry)

  datatype Stream = Stdout | Stderr

  /** One line of usage output and the stream it is written to. */
  datatype Line = Line(stream: Stream, text: string)

  /** The file-scope state of command.c: the command array's capacity, the
      registered commands, the active and help indices, and the option
      table and optstring buffers that getopt_long and the handlers read. */
  datatype Pki = Pki(maxCommands: nat, cmds: seq<Command>, active: int, helpIdx: int,
                     opts: seq<OptSlot>, optstring: seq<char>)
  {
    /** The source's mode test: the top-level listing is active exactly
        when the active index is the help index. */
    predicate TopLevel()
    {
      active == helpIdx
    }

    /** The active selection names something the source can read: either
        the top-level mode or a registered command. */
    predicate Selected()
    {
      TopLevel() || 0 <= active < |cmds|
    }
  }
}

=== FILE: usage.dfy ===
/**
 command_usage: the help text rendered from the registry and the active
 selection, optionally preceded by an error, and the status it returns.
 */
module UsageRenderer {
  import opened PkiTypes
  import opened CBuffers

  /** "--name (-c)" as printed for a command or a flag, before truncation. */
  function FullLabel(name: string, code: char): string
  {
    "--" + name + " (-" + [code] + ")"
  }

  /** The label as `snprintf` leaves it in the 64-byte buffer: the full
      label, cut to the 63 characters before the terminating NUL. */
  function Label(name: string, code: char): (r: string)
    ensures |r| == if |FullLabel(name, code)| <= 63 then |FullLabel(name, code)| else 63
    ensures r == FullLabel(name, code)[..|r|]
    ensures |name| <= 56 ==> r == FullLabel(name, code)
  {
    var full := FullLabel(name, code);
    if |full| <= 63 then full else full[..63]
  }

  /** `%-ws`: s, left-justified and padded with spaces to width w. */
  function PadRight(s: string, w: nat): (r: string)
    ensures |r| == Max(|s|, w)
    ensures r[..|s|] == s
    ensures forall j | |s| <= j < |r| :: r[j] == ' '
  {
    if |s| < w then s + seq(w - |s|, _ => ' ') else s
  }

  /** A line of the form `<indent><label padded to width> <desc>`. */
  ghost predicate LabelledLine(text: string, indent: string, tag: string, width: nat, desc: string)
  {
    var col := |indent| + Max(|tag|, width);
    && |text| == col + 1 + |desc|
    && text[..|indent|] == indent
    && text[|indent|..|indent| + |tag|] == tag
    && (forall j | |indent| + |tag| <= j < col :: text[j] == ' ')
    && text[col..] == " " + desc
  }

  /** What `%s` prints from the label buffer: everything before its first
      NUL. That is the whole label unless the name or the code is NUL; a
      NUL code ends the printed label right after "(-". */
  function PrintedLabel(name: string, code: char): (r: string)
    ensures |r| <= |Label(name, code)| && r == Label(name, code)[..|r|]
    ensures (forall i | 0 <= i < |name| :: name[i] != '\0') && code != '\0' ==> r == Label(name, code)
  {
    LabelReadsBack(name, code);
    CString(Label(name, code))
  }

  /** A label built from a NUL-free name and code holds no NUL, so the
      buffer reads back whole. */
  lemma LabelReadsBack(name: string, code: char)
    ensures (forall i | 0 <= i < |name| :: name[i] != '\0') && code != '\0' ==>
              CString(Label(name, code)) == Label(name, code)
  {
    if (forall i | 0 <= i < |name| :: name[i] != '\0') && code != '\0' {
      var full := FullLabel(name, code);
      var buf := Label(name, code);
      forall i | 0 <= i < |buf|
        ensures buf[i] != '\0'
      {
        assert buf[i] == full[i];
        if 2 <= i < 2 + |name| {
          assert full[i] == name[i - 2];
        }
      }
      CStringOfNulFree(buf);
    }
  }

  /** `<indent>%-ws <desc>` has the labelled-line layout. */
  lemma PaddedLineLayout(indent: string, tag: string, width: nat, desc: string)
    ensures LabelledLine(indent + PadRight(tag, width) + " " + desc, indent, tag, width, desc)
  {
    var p := PadRight(tag, width);
    var r := indent + p + " " + desc;
    assert r[..|indent|] == indent;
    assert r[|indent|..|indent| + |p|] == p;
    assert r[|indent| + |p|..] == " " + desc;
  }

  /** One line of the top-level listing (`  pki %-14s %s`): the printed
      label after "  pki ", padded to 14 columns, then the description. */
  function ListingLine(c: Command): (r: string)
    ensures LabelledLine(r, "  pki ", PrintedLabel(c.name, c.code), 14, c.description)
  {
    PaddedLineLayout("  pki ", PrintedLabel(c.name, c.code), 14, c.description);
    "  pki " + PadRight(PrintedLabel(c.name, c.code), 14) + " " + c.description
  }

  /** One line of a subcommand's flag help (`        %-15s %s`): the
      printed label after eight spaces, padded to 15 columns, then the
      flag's help text. */
  function FlagLine(f: Flag): (r: string)
    ensures LabelledLine(r, "        ", PrintedLabel(f.name, f.code), 15, f.desc)
  {
    PaddedLineLayout("        ", PrintedLabel(f.name, f.code), 15, f.desc);
    "        " + PadRight(PrintedLabel(f.name, f.code), 15) + " " + f.desc
  }

  /** A synopsis line: the first names the subcommand, "  pki --<name> ",
      and later ones are indented by fourteen spaces; the usage text
      follows unchanged. */
  function SynopsisLine(c: Command, i: nat): (r: string)
    requires i < |c.lines|
    ensures var prefix := if i == 0 then "  pki --" + c.name + " " else "              ";
            |r| == |prefix| + |c.lines[i]| && r[..|prefix|] == prefix && r[|prefix|..] == c.lines[i]
  {
    if i == 0 then "  pki --" + c.name + " " + c.lines[0] else "              " + c.lines[i]
  }

  /** A NUL code cuts the printed label short: `--x (-` for the command
      `x` with code NUL, which the listing then pads. */
  lemma NulCodeLabel()
    ensures PrintedLabel("x", '\0') == "--x (-"
  {
    var buf := Label("x", '\0');
    assert buf == "--x (-\0)";
    var r := PrintedLabel("x", '\0');
    assert forall i | 0 <= i < 6 :: buf[i] != '\0';
    assert buf[..6] == "--x (-";
  }

  function Banner(version: string): string
  {
    "strongSwan " + version + " PKI tool"
  }

  /** What command_usage writes and returns. */
  datatype UsageResult = UsageResult(status: int, lines: seq<Line>)

  /** Number of lines before the body: the error line, if any, the banner
      and "usage:". */
  function HeaderCount(error: Option<string>): nat
  {
    if error.Some? then 3 else 2
  }

  /** The stream command_usage writes to. */
  function OutStream(error: Option<string>): Stream
  {
    if error.Some? then Stderr else Stdout
  }

  function Header(error: Option<string>, version: string): (r: seq<Line>)
    ensures |r| == HeaderCount(error)
  {
    var out := OutStream(error);
    (if error.Some? then [Line(out, "Error: " + error.value)] else [])
    + [Line(out, Banner(version)), Line(out, "usage:")]
  }

  function Listing(cmds: seq<Command>, out: Stream): seq<Line>
  {
    seq(|cmds|, i requires 0 <= i < |cmds| => Line(out, ListingLine(cmds[i])))
  }

  function Synopsis(c: Command, out: Stream): seq<Line>
  {
    seq(|c.lines|, i requires 0 <= i < |c.lines| => Line(out, SynopsisLine(c, i)))
  }

  function FlagHelp(flags: seq<Flag>, out: Stream): seq<Line>
  {
    seq(|flags|, i requires 0 <= i < |flags| => Line(out, FlagLine(flags[i])))
  }

  /** What follows the header: the listing, or the active command's
      synopsis and flag help. */
  function Body(st: Pki, out: Stream): seq<Line>
    requires st.Selected()
  {
    if st.TopLevel() then Listing(st.cmds, out)
    else Synopsis(st.cmds[st.active], out) + FlagHelp(st.cmds[st.active].flags, out)
  }

  /** command_usage: with an error, everything goes to stderr after an
      "Error: ..." line and the status is 1; without one, to stdout with
      status 0. Then the banner, "usage:", and either one line per
      registered command (top-level) or the active command's synopsis lines
      followed by one line per flag. */
  function Usage(st: Pki, error: Option<string>, version: string): (r: UsageResult)
    requires st.Selected()
    ensures r.status != 0 <==> error.Some?
    ensures r.status == 0 || r.status == 1
    ensures forall i | 0 <= i < |r.lines| :: r.lines[i].stream == (if error.Some? then Stderr else Stdout)
    ensures |r.lines| == HeaderCount(error) +
              (if st.TopLevel() then |st.cmds| else |st.cmds[st.active].lines| + |st.cmds[st.active].flags|)
    ensures error.Some? ==> r.lines[0].text == "Error: " + error.value
    ensures r.lines[HeaderCount(error) - 2].text == Banner(version)
    ensures r.lines[HeaderCount(error) - 1].text == "usage:"
  {
    UsageResult(if error.Some? then 1 else 0, Header(error, version) + Body(st, OutStream(error)))
  }

  /** In top-level mode the body is one line per registered command, in
      registration order: the command's listing line, which ListingLine
      states to hold `--name (-c)` and the description;
      nothing follows the last one. */
  lemma UsageTopLevelListing(st: Pki, error: Option<string>, version: string)
    requires st.TopLevel()
    ensures Usage(st, error, version).lines[HeaderCount(error)..] == Listing(st.cmds, OutStream(error))
  {
    assert Usage(st, error, version).lines == Header(error, version) + Listing(st.cmds, OutStream(error));
  }

  /** With an error in top-level mode: status 1, and on stderr the error
      line, the banner, "usage:" and the listing. */
  lemma UsageErrorListing(st: Pki, msg: string, version: string)
    requires st.TopLevel()
    ensures var r := Usage(st, Some(msg), version);
            && r.status == 1
            && (forall k | 0 <= k < |r.lines| :: r.lines[k].stream == Stderr)
            && |r.lines| >= 3
            && r.lines[0].text == "Error: " + msg
            && r.lines[1].text == Banner(version)
            && r.lines[2].text == "usage:"
            && r.lines[3..] == Listing(st.cmds, Stderr)
  {
    UsageTopLevelListing(st, Some(msg), version);
  }

  /** The layout of a scoped usage text for command `c`: the header, the
      synopsis, and then exactly the flag help. */
  predicate ScopedLayout(u: UsageResult, c: Command, error: Option<string>)
  {
    var k := HeaderCount(error);
    && |u.lines| == k + |c.lines| + |c.flags|
    && u.lines[k..k + |c.lines|] == Synopsis(c, OutStream(error))
    && u.lines[k + |c.lines|..] == FlagHelp(c.flags, OutStream(error))
  }

  /** In scoped mode the usage text has the scoped layout of the active
      command. */
  lemma UsageScopedLayout(st: Pki, error: Option<string>, version: string)
    requires 0 <= st.active < |st.cmds| && !st.TopLevel()
    ensures ScopedLayout(Usage(st, error, version), st.cmds[st.active], error)
  {
    UsageScopedSynopsis(st, error, version);
    UsageScopedFlags(st, error, version);
  }

  /** In scoped mode the body starts with the synopsis: the first usage
      line after "  pki --<name> ", every later one after fourteen spaces
      (SynopsisLine), in order. */
  lemma UsageScopedSynopsis(st: Pki, error: Option<string>, version: string)
    requires 0 <= st.active < |st.cmds| && !st.TopLevel()
    ensures var c := st.cmds[st.active];
            var k := HeaderCount(error);
            Usage(st, error, version).lines[k..k + |c.lines|] == Synopsis(c, OutStream(error))
  {
    var c := st.cmds[st.active];
    var out := OutStream(error);
    var head := Header(error, version);
    var syn := Synopsis(c, out);
    assert Usage(st, error, version).lines == (head + syn) + FlagHelp(c.flags, out);
  }

  /** In scoped mode the synopsis is followed by one line per flag, in
      declared order: the flag's help line, which FlagLine states to hold
      `--name (-c)` and the help text; nothing follows the last one. */
  lemma UsageScopedFlags(st: Pki, error: Option<string>, version: string)
    requires 0 <= st.active < |st.cmds| && !st.TopLevel()
    ensures var c := st.cmds[st.active];
            Usage(st, error, version).lines[HeaderCount(error) + |c.lines|..] == FlagHelp(c.flags, OutStream(error))
  {
    var c := st.cmds[st.active];
    var out := OutStream(error);
    var head := Header(error, version);
    var syn := Synopsis(c, out);
    assert Usage(st, error, version).lines == (head + syn) + FlagHelp(c.flags, out);
  }
}
